=== FILE: README.md ===
# witherlib: field synchronisation and container-screen bookkeeping

This project models two sequential parts of witherlib, a Minecraft Forge
utility library, and proves properties of the model.

**`SyncVariable.Helper`** copies values between an object's fields annotated
with `@SyncVariable` and an NBT compound. An NBT compound is a string-keyed bag
of tags.
- `writeSyncVars` stores the fields that the sync type selects:
  - `WRITE` selects fields with `onSave`;
  - `PACKET` selects fields with `onPacket`;
  - `READ` selects nothing.
- `readSyncVars` assigns every annotated field from the bag.
- Both walk the fields that the given class declares.
- Both pick a conversion per field from one fixed chain:
  - the eight exact types: `int`, `float`, `String`, `boolean`, `double`, `long`, `short`, `byte`;
  - then `LazyOptional`, then `INBTSerializable`;
  - then the serializer table that `registerSerializer` fills;
  - otherwise an error. The error is printed, and the next field is processed.

The model (modules `SyncVariable` and `SyncProperties`) replaces reflection with
an explicit `Instance`. An `Instance` is a sequence of `Field`s. Each field
records:
- the class that declares it;
- its annotation, if any;
- whether reflection may assign it;
- its value, tagged with the declared type.

The other parts of the model:
- The bag is a `map<string, Tag>`.
- The serializer table is a `Registry` value.
- Printed stack traces become an error log.
- The host's `CompoundNBT` getters are functions in a `Host` value.
- The objects' `serializeNBT` and `deserializeNBT` are functions in the same `Host` value.

**`BaseContainerScreen`**, without drawing (module `BaseContainerScreen`):
- where the image is placed: `left()`, `top()` and the `getGui*`/`get*Size` delegates, in Java `int` arithmetic;
- the `widgets` list and the `tickableWidgets` list kept beside it;
- `init`, `addWidget`, `removeWidget` and `tick`;
- the hover test in `render`;
- what `keyPressed`, `keyReleased` and `charTyped` forward and return.

Widgets are Java objects, so one widget can be listed twice and be changed
through either entry. The model therefore keeps widget state in a heap
`objects: map<WidgetRef, Widget>`, and the lists hold references.

Module `JavaTypes` holds what both parts share:
- the fixed-width integer types and `char` as a 16-bit code unit;
- `Option`, for a possibly-null reference;
- 32-bit wrap-around on `+` and `-`;
- division by two rounding toward zero;
- opaque `float` and `double` values.

## Where the documentation and the code differ

The library's own Javadoc promises two things about reading that the code
does not do.
- The `onLoad` flag (SyncVariable.java:59-64) is documented as deciding
  whether the field is loaded. `readSyncVars` never reads it, so a field with
  `onLoad = false` is loaded anyway.
- The one-argument overloads, `readSyncVars(obj, tags)` and
  `writeSyncVars(obj, tags, syncType)`, are documented as handling "any
  field marked with the SyncVariable annotation" and "all fields marked with
  the SyncVariable annotation" of the object (SyncVariable.java:128-129 and
  224-225). Read plainly, that includes annotated fields a superclass
  declares. They pass `obj.getClass()`, and the code walks only that
  class's `getDeclaredFields()`, so neither direction visits inherited
  fields. The two-argument overloads say the same (lines 140-141 and
  238-239), but their `clazz` parameter is documented as "the class to search
  for fields in" (lines 143 and 241), which fits the code.

The model follows the code in both cases. The `onLoad` case is logged under
Findings, and a corrected reading is modelled beside the code as written.

## Model

| member | source | states |
|---|---|---|
| SyncVariable.RegisterSerializer | src/main/java/com/withertech/witherlib/nbt/SyncVariable.java:105-125 | after registration the class maps to a serializer whose `read` is the loader and whose `write` is the saver; every other class keeps its serializer |
| SyncVariable.Dispatch | src/main/java/com/withertech/witherlib/nbt/SyncVariable.java:170-213 | the chosen conversion applies to the field's type; the error branch is taken exactly for a class that is neither a `LazyOptional`, nor `INBTSerializable`, nor registered |
| SyncVariable.PutKeysMembership | src/main/java/com/withertech/witherlib/nbt/SyncVariable.java:258-319 | a key is written exactly when some field stores a tag under it; such a field is declared by the class, annotated, selected by the mode, and of a type that stores something |
| SyncVariable.WriteFields | src/main/java/com/withertech/witherlib/nbt/SyncVariable.java:258-331 | the bag's keys afterwards are its old keys plus the written ones; an entry no field writes keeps its tag; the log lists the failing fields' errors in field order |
| SyncVariable.WriteSyncVars | src/main/java/com/withertech/witherlib/nbt/SyncVariable.java:248-334 | in `READ` mode the same bag comes back with no error; no key is ever removed; every field that stores a tag has its key in the result; every entry that changed belongs to a field that the class declares, that is annotated and that the mode selects (`onSave` for `WRITE`, `onPacket` for `PACKET`); each failing field is reported |
| SyncVariable.Selected | src/main/java/com/withertech/witherlib/nbt/SyncVariable.java:267-268 | `WRITE` selects exactly the `onSave` fields, `PACKET` exactly the `onPacket` fields, and `READ` none |
| SyncVariable.WriteAction | src/main/java/com/withertech/witherlib/nbt/SyncVariable.java:280-323 | the write branch follows the dispatch: it fails exactly for an unsupported class, with that class's "write" error; it skips exactly an empty `LazyOptional`; an exact type stores its own put tag, a present `LazyOptional` or an `INBTSerializable` stores `serializeNBT()`, a registered class stores its saver's output over a fresh compound |
| SyncVariable.ReadAction | src/main/java/com/withertech/witherlib/nbt/SyncVariable.java:170-213 | the read branch follows the dispatch: an assigned value keeps the field's type; it keeps exactly an empty `LazyOptional`; it fails exactly for an unsupported class, or for a non-assignable exact-typed or registered field, with the "read" error or the access error respectively; a settable exact-typed field gets the matching getter's value, a present `LazyOptional` keeps its content after `deserializeNBT` of the tag under its key, an `INBTSerializable` gets `deserializeNBT` of the tag under its key, a settable registered field gets its loader's result on `getCompound(key)` |
| SyncVariable.WriteErrorsNeedSelection | src/main/java/com/withertech/witherlib/nbt/SyncVariable.java:262-327 | a write reports no error exactly when no visited, selected field fails |
| SyncVariable.WriteObject | src/main/java/com/withertech/witherlib/nbt/SyncVariable.java:232-235 | the one-argument overload writes only fields that the object's runtime class itself declares |
| SyncVariable.ReadOne | src/main/java/com/withertech/witherlib/nbt/SyncVariable.java:153-217 | reading a field never changes its declaring class, annotation, assignability or type; a field that is not read is unchanged; at most one error is reported per field |
| SyncVariable.ReadFields | src/main/java/com/withertech/witherlib/nbt/SyncVariable.java:151-220 | each field's result depends only on that field, the bag and the host, never on the other fields (which holds as long as no two fields share one object, see Left out); the log is the per-field errors in field order |
| SyncVariable.ReadSyncVars | src/main/java/com/withertech/witherlib/nbt/SyncVariable.java:148-221 | the object keeps its class and field count; every field keeps its type; fields the class does not declare (inherited ones) and unannotated fields are unchanged; what each visited field is assigned is stated by `SyncProperties.ReadSyncVarsAssigns` |
| SyncVariable.ReadSyncVarsHonoringOnLoad | src/main/java/com/withertech/witherlib/nbt/SyncVariable.java:59-64 | the corrected read: in addition, a field whose `onLoad` is false is left unchanged |
| SyncVariable.ReadObject | src/main/java/com/withertech/witherlib/nbt/SyncVariable.java:134-137 | the one-argument overload leaves every field that the runtime class does not declare unchanged |
| SyncProperties.DispatchIsFirstMatch | src/main/java/com/withertech/witherlib/nbt/SyncVariable.java:170-213 | the dispatch is the first applicable rule of the twelve-rule priority list: eight exact types, `LazyOptional`, `INBTSerializable`, registry, error |
| SyncProperties.SameDispatchBothWays | src/main/java/com/withertech/witherlib/nbt/SyncVariable.java:280-323 | writing and reading follow the same branch for each field: an exact type is put and then got with the matching getter; an empty `LazyOptional` is skipped both ways; a present `LazyOptional` or a serializable object is serialised and then deserialised; a registered class is written to a fresh compound and then read from `getCompound`; an unsupported class fails both ways, and only it fails on writing. This holds while a `LazyOptional`'s content is `INBTSerializable` (see Left out) |
| SyncProperties.LastRegistrationWins | src/main/java/com/withertech/witherlib/nbt/SyncVariable.java:105-125 | registering twice for one class equals registering only the second pair |
| SyncProperties.RegisteringEnablesField | src/main/java/com/withertech/witherlib/nbt/SyncVariable.java:204-213 | a plain unregistered class fails both ways; after registration, writing stores `saver` applied to a fresh compound, and reading assigns `loader(getCompound(key))` |
| SyncProperties.DefaultAnnotationSyncsEverywhere | src/main/java/com/withertech/witherlib/nbt/SyncVariable.java:57-88 | an annotation with only a name is selected by `WRITE` and `PACKET`, not by `READ`, and is loaded |
| SyncProperties.WriteLastWriterWins | src/main/java/com/withertech/witherlib/nbt/SyncVariable.java:258-331 | when several fields share a key, the bag holds the tag of the last field that writes it |
| SyncProperties.WriteSkipsFailingField | src/main/java/com/withertech/witherlib/nbt/SyncVariable.java:320-327 | a field whose type cannot be written leaves the bag exactly as if the field were absent, and its error is in the log |
| SyncProperties.ErrorInWriteErrors | src/main/java/com/withertech/witherlib/nbt/SyncVariable.java:320-327 | the error of every failing field is among the errors a write reports |
| SyncProperties.SaveExample | src/main/java/com/withertech/witherlib/nbt/SyncVariable.java:248-334 | saving `Count = 5` (saved) and `Label = "x"` (not saved) into an empty bag gives `{"Count": 5}` and no error |
| SyncProperties.ReadErrorsEmpty | src/main/java/com/withertech/witherlib/nbt/SyncVariable.java:209-217 | a read reports nothing exactly when no loaded field fails |
| SyncProperties.ReadSyncVarsAssigns | src/main/java/com/withertech/witherlib/nbt/SyncVariable.java:128-217 | for any bag, every visited field gets what its conversion reads; a settable primitive or string field gets the matching getter's value for its key; an empty `LazyOptional` is kept; a field that fails keeps its value and its error is in the log |
| SyncProperties.ReadSkipsFailingField | src/main/java/com/withertech/witherlib/nbt/SyncVariable.java:209-217 | a field that fails to read is unchanged, its error is logged, and every other field reads as if it were absent |
| SyncProperties.RoundTripField | src/main/java/com/withertech/witherlib/nbt/SyncVariable.java:170-193 | a saved exact-typed field whose key no later field overwrites reads back to its own value, with or without `onLoad` honoured |
| SyncProperties.RoundTripFields | src/main/java/com/withertech/witherlib/nbt/SyncVariable.java:280-303 | with distinct keys and every visited field exact-typed and saved, reading the saved bag gives back the field list |
| SyncProperties.RoundTrip | src/main/java/com/withertech/witherlib/nbt/SyncVariable.java:148-334 | `writeSyncVars(WRITE)` then `readSyncVars` returns the object unchanged, under both reading variants; no error is reported when every visited field is assignable |
| SyncProperties.ReadIgnoresOnLoad | src/main/java/com/withertech/witherlib/nbt/SyncVariable.java:151-170 | changing `onLoad` on any field changes neither the values read nor the errors reported |
| SyncProperties.OnLoadFalseStillLoads | src/main/java/com/withertech/witherlib/nbt/SyncVariable.java:151-172 | an `int` field with `onLoad = false` is still assigned 5 from `{"Count": 5}` |
| SyncProperties.OnLoadFalseKeptWhenHonored | src/main/java/com/withertech/witherlib/nbt/SyncVariable.java:59-64 | with `onLoad` honoured, that field keeps its value |
| JavaTypes.Wrap32 | src/main/java/com/withertech/witherlib/gui/BaseContainerScreen.java:220-221 | Java `int` results are the mathematical value modulo 2^32, and are exact when in range |
| JavaTypes.Half32 | src/main/java/com/withertech/witherlib/gui/BaseContainerScreen.java:83-94 | `/ 2` rounds toward zero: twice the half equals the value, or the value minus one when it is odd and non-negative, or the value plus one when it is odd and negative |
| BaseContainerScreen.Left | src/main/java/com/withertech/witherlib/gui/BaseContainerScreen.java:83-86 | `left()` is half of `width - sizeX()` computed with wrap-around, rounded toward zero; without overflow, half of the true difference |
| BaseContainerScreen.Top | src/main/java/com/withertech/witherlib/gui/BaseContainerScreen.java:91-94 | `top()` is the same for `height - sizeY()` |
| BaseContainerScreen.GetXSize | src/main/java/com/withertech/witherlib/gui/BaseContainerScreen.java:96-134 | `getXSize()` reports `sizeX()`, which is the image width `init` records (line 133) whatever widgets it adds |
| BaseContainerScreen.GetYSize | src/main/java/com/withertech/witherlib/gui/BaseContainerScreen.java:102-134 | `getYSize()` reports `sizeY()`, which is the image height `init` records (line 134) whatever widgets it adds |
| BaseContainerScreen.GetGuiLeft | src/main/java/com/withertech/witherlib/gui/BaseContainerScreen.java:108-112 | `getGuiLeft()` is `left()`; without overflow, half of `width - getXSize()` rounded toward zero |
| BaseContainerScreen.GetGuiTop | src/main/java/com/withertech/witherlib/gui/BaseContainerScreen.java:114-118 | `getGuiTop()` is `top()`; without overflow, half of `height - getYSize()` rounded toward zero |
| BaseContainerScreen.LeftMirrored | src/main/java/com/withertech/witherlib/gui/BaseContainerScreen.java:83-86 | swapping the window width and the image width negates `left()` |
| BaseContainerScreen.GuiBoxCentred | src/main/java/com/withertech/witherlib/gui/BaseContainerScreen.java:83-118 | when the image fits the window, the reported box is centred: both margins are non-negative and differ by at most one pixel, the extra pixel going right or down |
| BaseContainerScreen.LeftRoundsTowardZero | src/main/java/com/withertech/witherlib/gui/BaseContainerScreen.java:83-112 | when the image is wider than the window, `getGuiLeft` is minus half the overhang, rounded toward zero |
| BaseContainerScreen.TickableOf | src/main/java/com/withertech/witherlib/gui/BaseContainerScreen.java:156-158 | the tickable sub-sequence holds exactly the tickable widgets of the list |
| BaseContainerScreen.RemoveFirst | src/main/java/com/withertech/witherlib/gui/BaseContainerScreen.java:171-174 | `List.remove` drops one occurrence, the first, and keeps the others in order; an absent widget leaves the list unchanged |
| BaseContainerScreen.TickableOfRemoveFirst | src/main/java/com/withertech/witherlib/gui/BaseContainerScreen.java:169-177 | removing a widget and then filtering for tickable widgets equals filtering first and then removing the widget (when it is tickable) |
| BaseContainerScreen.AddWidget | src/main/java/com/withertech/witherlib/gui/BaseContainerScreen.java:153-161 | returns its argument; the widget is appended to `widgets`; no existing widget's state changes, so a widget added again keeps its state; the window and image sizes are unchanged; the tickable-list invariant is kept |
| BaseContainerScreen.AddAll | src/main/java/com/withertech/witherlib/gui/BaseContainerScreen.java:139-145 | the added widgets follow the old list in order; the invariant is kept; sizes and existing widgets' states are unchanged |
| BaseContainerScreen.Init | src/main/java/com/withertech/witherlib/gui/BaseContainerScreen.java:131-140 | the image size becomes `sizeX()` by `sizeY()`; the window size and `sizeX()`/`sizeY()` are unchanged; afterwards exactly the added widgets are listed, whatever was listed before; existing widgets keep their state; the invariant holds |
| BaseContainerScreen.InitImageMatchesReportedSize | src/main/java/com/withertech/witherlib/gui/BaseContainerScreen.java:96-140 | after `init`, the recorded image size is what `getXSize()` and `getYSize()` report |
| BaseContainerScreen.RemoveWidget | src/main/java/com/withertech/witherlib/gui/BaseContainerScreen.java:169-177 | returns its argument; the first occurrence leaves `widgets` and the rest keep their order; an absent widget changes nothing; widget states and sizes are unchanged; the invariant is kept |
| BaseContainerScreen.AddThenRemove | src/main/java/com/withertech/witherlib/gui/BaseContainerScreen.java:153-177 | removing a widget that was just added, and not listed before, restores both lists |
| BaseContainerScreen.Tick | src/main/java/com/withertech/witherlib/gui/BaseContainerScreen.java:180-189 | `tick()` reaches exactly the tickable widgets, in list order, which under the invariant is `tickableWidgets` |
| BaseContainerScreen.Inside | src/main/java/com/withertech/witherlib/gui/BaseContainerScreen.java:220-221 | without overflow of the right or bottom edge, the hover test holds exactly for points strictly inside the widget; edges do not count |
| BaseContainerScreen.ThinWidgetNeverHovered | src/main/java/com/withertech/witherlib/gui/BaseContainerScreen.java:220-221 | without overflow, a widget one pixel wide or high is never hovered |
| BaseContainerScreen.HoverOne | src/main/java/com/withertech/witherlib/gui/BaseContainerScreen.java:219-221 | one iteration: the widget's `wasHovered` takes its old `hovered`, `hovered` takes the test, nothing else about it changes, and every other widget is unchanged |
| BaseContainerScreen.HoverAll | src/main/java/com/withertech/witherlib/gui/BaseContainerScreen.java:216-221 | listed widgets get `hovered` set to the test; unlisted widgets are unchanged; position, size and `canWrite` are never changed |
| BaseContainerScreen.HoverAllRemembers | src/main/java/com/withertech/witherlib/gui/BaseContainerScreen.java:219-221 | a widget listed once keeps its previous `hovered` as `wasHovered`; one listed more than once ends with both flags equal to the test |
| BaseContainerScreen.Render | src/main/java/com/withertech/witherlib/gui/BaseContainerScreen.java:215-221 | the lists and the set of widgets are unchanged and the invariant is kept; each listed widget is hovered by the mouse taken relative to `left()`/`top()` |
| BaseContainerScreen.RenderTwiceSettles | src/main/java/com/withertech/witherlib/gui/BaseContainerScreen.java:216-221 | after two frames with the mouse still, every listed widget has `wasHovered == hovered` |
| BaseContainerScreen.KeyPressed | src/main/java/com/withertech/witherlib/gui/BaseContainerScreen.java:401-415 | every widget is sent the key, in order, with no early exit; the result is true exactly when some widget is a writable text field |
| BaseContainerScreen.KeyPressedFull | src/main/java/com/withertech/witherlib/gui/BaseContainerScreen.java:381-396 | a writable text field takes the key first; otherwise the inventory key closes the screen and returns true; otherwise the host's answer is returned |
| BaseContainerScreen.KeyReleased | src/main/java/com/withertech/witherlib/gui/BaseContainerScreen.java:418-434 | every widget is sent the key, and the result is false |
| BaseContainerScreen.CharTyped | src/main/java/com/withertech/witherlib/gui/BaseContainerScreen.java:437-453 | every widget is sent the UTF-16 code unit, and the result is false |

## Left out

- Java reflection (`getDeclaredFields`, `isAccessible`, `setAccessible`) is replaced by the explicit field list. A `static final` field becomes `settable = false`, which makes assigning it report an access error.
- A `LazyOptional`'s content is assumed to be `INBTSerializable`. The source casts it unchecked (SyncVariable.java:197-199 and 307-309), so other content throws a `ClassCastException` that is not caught and aborts the whole call. The model serialises and deserialises the content whatever its class.
- Null values are left out. A null `String`, `LazyOptional` or `INBTSerializable` field value is dereferenced unguarded, and the resulting `NullPointerException` is not caught.
- `CompoundNBT` getters are parameters of the model. What `getInt` and the other getters return for a missing or mismatching key, and what `getCompound` returns, is not modelled. The round trip assumes only that each getter returns what the matching `put` stored.
- `serializeNBT`, `deserializeNBT` and the registered loaders and savers are parameters of the model. An object's state is an opaque tag, and deserialising returns the object's new state.
- Objects shared between fields are left out. The `LazyOptional` and `INBTSerializable` read paths (SyncVariable.java:197-203) deserialise the referenced object in place. When two annotated fields reach the same object, Java deserialises it twice and both fields show the final state. The model gives each field its own copy of the object, so each field shows only its own deserialisation.
- Host callbacks never fail in the model. The source catches only `IllegalAccessException` and `IllegalArgumentException` (SyncVariable.java:214 and 324). Any other exception from `serializeNBT`, `deserializeNBT`, a loader or a saver aborts the whole call, and later fields are not processed. An example is a `NullPointerException` in `deserializeNBT` when `tags.get(name)` returns null for a missing key.
- An `IllegalArgumentException` thrown by a host callback is caught and printed in the source; the model has no such error. The same holds for one thrown by `field.get` or `field.set` when the object is not an instance of the `clazz` passed in. The model's instance always carries the fields it is read or written through.
- The field list stands for `getDeclaredFields()`, whose order Java leaves unspecified. "The last field that writes a key" (`WriteLastWriterWins`) and the order of the error log hold for whatever order that call returns.
- Java strings are sequences of UTF-16 code units, but `StringV` and `StringTag` hold Dafny strings, whose characters exclude lone surrogates. Strings are only copied, never inspected. `CharTyped` takes a 16-bit code unit, so a supplementary character arrives as two calls, as in Java.
- `float` and `double` values are opaque bit patterns, because nothing computes with them.
- Array tags are not distinguished from list tags, because nothing in the model inspects a tag the host produces; `serializeNBT()` may return any tag, and it is stored as it is.
- The process-wide `SERIALIZERS` map is an explicit value. Initialisation order and concurrent access are not modelled.
- SyncProperties.RoundTrip: covers only fields of the eight exact types. The other paths round-trip only if the host's own `serializeNBT`/`deserializeNBT` or the registered pair do.
- The mouse handlers (`mouseClicked`, `mouseReleased`, `mouseScrolled`) are left out. They apply a `double` offset, forward to every widget and restore the offset.
- All drawing is left out: backgrounds, slot textures, GL state, matrix translation, `blitOffset`, widget `render`, narration, tooltips and foreground text.
- `setDrawSlots` is left out, because `drawSlots` only affects drawing.
- `isPauseScreen` is left out.
- `super.init()` and `super.render()` are the host's and are left out. So are the host's `leftPos`/`topPos` fields.
- The host's `keyPressed` is left out; its answer is a parameter. Whether a key is the inventory key is a parameter too. What `onClose` does is left out; only the outcome `ClosedScreen` is recorded.
- A widget's own `tick`, `keyPressed`, `keyReleased` and `charTyped` effects are left out. The model records which widgets are called, in order.
- Adding or removing widgets while the lists are being iterated (Java's `ConcurrentModificationException`) is left out.
- `addWidgets` is abstract, so `Init` takes the widgets it adds as a parameter.
- ToggleButtonWidget, TileGui, TestProgressGui, ItemBaseScreen, BuilderChestLootTableProvider and CoreSide are left out. They are drawing, registry glue, a supplier over the host inventory, an abstract override and a trivial enum wrapper.

## Findings

| source | as written | input that shows it | evidently intended | confidence | as-written member | corrected member |
|---|---|---|---|---|---|---|
| src/main/java/com/withertech/witherlib/nbt/SyncVariable.java:151-170 | `readSyncVars` assigns every annotated field and never reads the annotation's `onLoad` flag | an `int` field annotated `name = "Count", onLoad = false` holding 0, read from `{"Count": 5}`, becomes 5 | the flag's documentation (lines 59-64) says it decides whether the field is loaded, so the field should keep 0 | medium, not executed | SyncProperties.OnLoadFalseStillLoads | SyncVariable.ReadSyncVarsHonoringOnLoad |

=== FILE: container_screen.dfy ===
/**
  The bookkeeping of `BaseContainerScreen`, without any drawing: where the
  screen's image is placed, the list of widgets and the list of tickable
  widgets kept beside it, the hover test run on every frame, and what the key
  and character handlers forward and return.

  Widgets are objects, so the same widget can sit in both lists (or twice in
  one list) and be changed through either. The model keeps widget state in
  a heap `objects` indexed by `WidgetRef`, and the two lists hold references.
 */
module BaseContainerScreen {
  import opened JavaTypes

  /** A reference to a widget object, with the interfaces its class implements. */
  datatype WidgetRef = WidgetRef(serial: nat, tickable: bool, textField: bool)

  /** The state of a widget that the screen reads or writes; `canWrite` only means something for a text field. */
  datatype Widget = Widget(x: i32, y: i32, width: i32, height: i32, hovered: bool, wasHovered: bool, canWrite: bool)

  /**
    The screen: the window size the host gives it, what the subclass's
    `sizeX()`/`sizeY()` return, the image size `init` records, the two widget
    lists and the widget objects.
   */
  datatype Screen = Screen(
    width: i32, height: i32,
    sizeX: i32, sizeY: i32,
    imageWidth: i32, imageHeight: i32,
    widgets: seq<WidgetRef>,
    tickableWidgets: seq<WidgetRef>,
    objects: map<WidgetRef, Widget>)

  // ---------------------------------------------------------------------------
  // Placement
  // ---------------------------------------------------------------------------

  /**
    `left()`: `(width - sizeX()) / 2` in Java `int` arithmetic: half the
    wrapped difference, rounded toward zero, which is half the true
    difference whenever that fits in an `int`.
   */
  function Left(s: Screen): (r: i32)
    ensures TruncatedHalf(r as int, Sub32(s.width, s.sizeX) as int)
    ensures -TWO_31 <= s.width as int - s.sizeX as int < TWO_31 ==>
      TruncatedHalf(r as int, s.width as int - s.sizeX as int)
  {
    Half32(Sub32(s.width, s.sizeX))
  }

  /** `top()`: `(height - sizeY()) / 2` in Java `int` arithmetic, as for `Left`. */
  function Top(s: Screen): (r: i32)
    ensures TruncatedHalf(r as int, Sub32(s.height, s.sizeY) as int)
    ensures -TWO_31 <= s.height as int - s.sizeY as int < TWO_31 ==>
      TruncatedHalf(r as int, s.height as int - s.sizeY as int)
  {
    Half32(Sub32(s.height, s.sizeY))
  }

  /**
    `getXSize()`: the width the subclass's `sizeX()` gives, which is the
    image width `init` records, whatever widgets it then adds.
   */
  function GetXSize(s: Screen): (r: i32)
    ensures r == s.sizeX
    ensures forall added :: Init(s, added).imageWidth == r
  {
    s.sizeX
  }

  /**
    `getYSize()`: the height the subclass's `sizeY()` gives, which is the
    image height `init` records, whatever widgets it then adds.
   */
  function GetYSize(s: Screen): (r: i32)
    ensures r == s.sizeY
    ensures forall added :: Init(s, added).imageHeight == r
  {
    s.sizeY
  }

  /** `getGuiLeft()`: `left()`, so it splits what `getXSize()` leaves of the window. */
  function GetGuiLeft(s: Screen): (r: i32)
    ensures r == Left(s)
    ensures -TWO_31 <= s.width as int - GetXSize(s) as int < TWO_31 ==>
      TruncatedHalf(r as int, s.width as int - GetXSize(s) as int)
  {
    Left(s)
  }

  /** `getGuiTop()`: `top()`, so it splits what `getYSize()` leaves of the window. */
  function GetGuiTop(s: Screen): (r: i32)
    ensures r == Top(s)
    ensures -TWO_31 <= s.height as int - GetYSize(s) as int < TWO_31 ==>
      TruncatedHalf(r as int, s.height as int - GetYSize(s) as int)
  {
    Top(s)
  }

  /**
    When the image fits in the window, the box reported by `getGuiLeft`,
    `getGuiTop`, `getXSize` and `getYSize` is centred: the margins on the two
    sides differ by at most one pixel, the extra pixel going right or down.
   */
  lemma GuiBoxCentred(s: Screen)
    requires 0 <= s.sizeX <= s.width && 0 <= s.sizeY <= s.height
    ensures var l, w := GetGuiLeft(s) as int, GetXSize(s) as int;
      0 <= l && l + w + l <= s.width as int <= l + w + l + 1
    ensures var t, h := GetGuiTop(s) as int, GetYSize(s) as int;
      0 <= t && t + h + t <= s.height as int <= t + h + t + 1
  {
  }

  /**
    When the image is wider than the window, `left()` is negative and rounds
    toward zero, so the overhang is split with the extra pixel on the left
    side, not the right.
   */
  lemma LeftRoundsTowardZero(s: Screen)
    requires s.width < s.sizeX && s.sizeX as int - s.width as int < TWO_31
    ensures GetGuiLeft(s) as int == -((s.sizeX as int - s.width as int) / 2)
  {
  }

  /**
    Swapping the window width and the image width mirrors the placement:
    `left()` changes sign, because Java's division rounds toward zero on both
    sides.
   */
  lemma LeftMirrored(s: Screen)
    requires -TWO_31 < s.width as int - s.sizeX as int < TWO_31
    ensures Left(s.(width := s.sizeX, sizeX := s.width)) == -Left(s)
  {
  }

  // ---------------------------------------------------------------------------
  // The widget lists
  // ---------------------------------------------------------------------------

  /** The tickable widgets of `ws`, in the order of `ws`. */
  function TickableOf(ws: seq<WidgetRef>): (r: seq<WidgetRef>)
    ensures |r| <= |ws|
    ensures forall w | w in r :: w.tickable && w in ws
    ensures forall w | w in ws && w.tickable :: w in r
    decreases |ws|
  {
    if ws == [] then []
    else (if ws[0].tickable then [ws[0]] else []) + TickableOf(ws[1..])
  }

  lemma {:induction false} TickableOfAppend(ws: seq<WidgetRef>, w: WidgetRef)
    ensures TickableOf(ws + [w]) == TickableOf(ws) + (if w.tickable then [w] else [])
    decreases |ws|
  {
    if ws != [] {
      assert (ws + [w])[1..] == ws[1..] + [w];
      TickableOfAppend(ws[1..], w);
    }
  }

  lemma {:induction false} TickableOfConcat(a: seq<WidgetRef>, b: seq<WidgetRef>)
    ensures TickableOf(a + b) == TickableOf(a) + TickableOf(b)
    decreases |a|
  {
    if a != [] {
      assert (a + b)[0] == a[0];
      assert (a + b)[1..] == a[1..] + b;
      TickableOfConcat(a[1..], b);
      var head := if a[0].tickable then [a[0]] else [];
      assert TickableOf(a) == head + TickableOf(a[1..]);
      assert TickableOf(a + b) == head + TickableOf(a[1..] + b);
      assert head + (TickableOf(a[1..]) + TickableOf(b)) == (head + TickableOf(a[1..])) + TickableOf(b);
    } else {
      assert a + b == b;
    }
  }

  /** Where `w` first occurs in `ws`. */
  function FirstIndex(ws: seq<WidgetRef>, w: WidgetRef): (i: nat)
    requires w in ws
    ensures i < |ws| && ws[i] == w && w !in ws[..i]
    decreases |ws|
  {
    if ws[0] == w then 0
    else
      var i := FirstIndex(ws[1..], w);
      assert ws[..i + 1] == [ws[0]] + ws[1..][..i];
      i + 1
  }

  /** `List.remove(Object)`: drops the first occurrence, if there is one. */
  function RemoveFirst(ws: seq<WidgetRef>, w: WidgetRef): (r: seq<WidgetRef>)
    ensures w !in ws ==> r == ws
    ensures w in ws ==> r == ws[..FirstIndex(ws, w)] + ws[FirstIndex(ws, w) + 1..]
    ensures multiset(r) == multiset(ws) - multiset{w}
  {
    if w in ws then
      var i := FirstIndex(ws, w);
      assert ws == ws[..i] + [w] + ws[i + 1..];
      ws[..i] + ws[i + 1..]
    else ws
  }

  /** Removing `w` from `a + [w] + b`, where `a` does not hold `w`, gives `a + b`. */
  lemma RemoveFirstSplit(a: seq<WidgetRef>, w: WidgetRef, b: seq<WidgetRef>)
    requires w !in a
    ensures RemoveFirst(a + [w] + b, w) == a + b
  {
    var ws := a + [w] + b;
    var i := FirstIndex(ws, w);
    assert forall j | 0 <= j < |a| :: ws[j] == a[j] && a[j] != w;
    assert ws[|a|] == w;
    assert forall j | 0 <= j < i :: ws[..i][j] == ws[j] && ws[j] != w;
    assert i == |a|;
    assert ws[..i] == a && ws[i + 1..] == b;
  }

  /** Removing the first occurrence commutes with keeping the tickable widgets. */
  lemma TickableOfRemoveFirst(ws: seq<WidgetRef>, w: WidgetRef)
    ensures TickableOf(RemoveFirst(ws, w)) == if w.tickable then RemoveFirst(TickableOf(ws), w) else TickableOf(ws)
  {
    if w in ws {
      var i := FirstIndex(ws, w);
      var a, b := ws[..i], ws[i + 1..];
      assert ws == (a + [w]) + b;
      assert RemoveFirst(ws, w) == a + b;
      TickableOfConcat(a, b);
      TickableOfConcat(a + [w], b);
      TickableOfAppend(a, w);
      var ta, tb := TickableOf(a), TickableOf(b);
      if w.tickable {
        assert TickableOf(ws) == ta + [w] + tb;
        assert w !in ta;
        RemoveFirstSplit(ta, w, tb);
      } else {
        assert TickableOf(ws) == ta + tb;
      }
    } else if w.tickable {
      assert w !in TickableOf(ws);
    }
  }

  /** Whether two screens agree on the window size, the subclass's size and the image size. */
  predicate SameGeometry(s: Screen, t: Screen) {
    && s.width == t.width && s.height == t.height && s.sizeX == t.sizeX && s.sizeY == t.sizeY
    && s.imageWidth == t.imageWidth && s.imageHeight == t.imageHeight
  }

  /**
    The screen's invariant: `tickableWidgets` is exactly the tickable part of
    `widgets`, in the same order, and every listed widget exists.
   */
  predicate Valid(s: Screen) {
    && s.tickableWidgets == TickableOf(s.widgets)
    && forall w | w in s.widgets :: w in s.objects
  }

  /**
    `addWidget`: appends to `widgets`, and to `tickableWidgets` when the
    widget is tickable; returns its argument. The widget object is not
    changed: `state` is what a widget not seen before holds, and a widget
    that already exists keeps its state.
   */
  function AddWidget(s: Screen, w: WidgetRef, state: Widget): (r: (Screen, WidgetRef))
    ensures r.1 == w
    ensures r.0.widgets == s.widgets + [w]
    ensures r.0.objects.Keys == s.objects.Keys + {w}
    ensures r.0.objects[w] == if w in s.objects then s.objects[w] else state
    ensures forall v | v in s.objects :: r.0.objects[v] == s.objects[v]
    ensures SameGeometry(s, r.0)
    ensures Valid(s) ==> Valid(r.0)
  {
    TickableOfAppend(s.widgets, w);
    var tickable := if w.tickable then s.tickableWidgets + [w] else s.tickableWidgets;
    var objects := if w in s.objects then s.objects else s.objects[w := state];
    (s.(widgets := s.widgets + [w], tickableWidgets := tickable, objects := objects), w)
  }

  /** The references of the widgets in `added`, in order. */
  function Refs(added: seq<(WidgetRef, Widget)>): seq<WidgetRef> {
    seq(|added|, i requires 0 <= i < |added| => added[i].0)
  }

  /** What `addWidgets` adds, one `addWidget` call after another. */
  function AddAll(s: Screen, added: seq<(WidgetRef, Widget)>): (r: Screen)
    ensures r.widgets == s.widgets + Refs(added)
    ensures Valid(s) ==> Valid(r)
    ensures SameGeometry(s, r)
    ensures forall v | v in s.objects :: v in r.objects && r.objects[v] == s.objects[v]
    decreases |added|
  {
    if added == [] then
      assert s.widgets + Refs(added) == s.widgets;
      s
    else
      var t := AddWidget(s, added[0].0, added[0].1).0;
      assert t.widgets + Refs(added[1..]) == s.widgets + Refs(added);
      AddAll(t, added[1..])
  }

  /**
    `init`: records the image size, empties both lists and then runs
    `addWidgets`, given here as the widgets it adds. Only those widgets are
    listed afterwards, whatever was listed before.
   */
  function Init(s: Screen, added: seq<(WidgetRef, Widget)>): (r: Screen)
    ensures r.imageWidth == s.sizeX && r.imageHeight == s.sizeY
    ensures r.width == s.width && r.height == s.height && r.sizeX == s.sizeX && r.sizeY == s.sizeY
    ensures |r.widgets| == |added| && forall i | 0 <= i < |added| :: r.widgets[i] == added[i].0
    ensures forall v | v in s.objects :: v in r.objects && r.objects[v] == s.objects[v]
    ensures Valid(r)
  {
    AddAll(s.(imageWidth := s.sizeX, imageHeight := s.sizeY, widgets := [], tickableWidgets := []), added)
  }

  /** After `init`, the image size recorded is the size `getXSize()` and `getYSize()` report. */
  lemma InitImageMatchesReportedSize(s: Screen, added: seq<(WidgetRef, Widget)>)
    ensures var r := Init(s, added);
      r.imageWidth == GetXSize(r) && r.imageHeight == GetYSize(r)
  {
  }

  /**
    `removeWidget`: drops the first occurrence from `widgets`, and from
    `tickableWidgets` when the widget is tickable; returns its argument.
   */
  function RemoveWidget(s: Screen, w: WidgetRef): (r: (Screen, WidgetRef))
    ensures r.1 == w
    ensures r.0.widgets == RemoveFirst(s.widgets, w)
    ensures multiset(r.0.widgets) == multiset(s.widgets) - multiset{w}
    ensures w !in s.widgets ==> r.0.widgets == s.widgets
    ensures r.0.objects == s.objects && SameGeometry(s, r.0)
    ensures Valid(s) ==> Valid(r.0)
  {
    TickableOfRemoveFirst(s.widgets, w);
    var tickable := if w.tickable then RemoveFirst(s.tickableWidgets, w) else s.tickableWidgets;
    (s.(widgets := RemoveFirst(s.widgets, w), tickableWidgets := tickable), w)
  }

  /** Removing a widget that was just added, and was not listed before, restores both lists. */
  lemma AddThenRemove(s: Screen, w: WidgetRef, state: Widget)
    requires Valid(s) && w !in s.widgets
    ensures var r := RemoveWidget(AddWidget(s, w, state).0, w).0;
      r.widgets == s.widgets && r.tickableWidgets == s.tickableWidgets
  {
  }

  /** `tick`: the widgets whose `tick()` is called, in call order. */
  method Tick(s: Screen) returns (ticked: seq<WidgetRef>)
    ensures ticked == TickableOf(s.widgets)
    ensures Valid(s) ==> ticked == s.tickableWidgets
  {
    ticked := [];
    var i := 0;
    while i < |s.widgets|
      invariant 0 <= i <= |s.widgets|
      invariant ticked == TickableOf(s.widgets[..i])
    {
      TickableOfAppend(s.widgets[..i], s.widgets[i]);
      assert s.widgets[..i + 1] == s.widgets[..i] + [s.widgets[i]];
      if s.widgets[i].tickable {
        ticked := ticked + [s.widgets[i]];
      }
      i := i + 1;
    }
    assert s.widgets[..i] == s.widgets;
  }

  // ---------------------------------------------------------------------------
  // Hovering
  // ---------------------------------------------------------------------------

  /** Whether `a + b` on two `int`s is the exact sum. */
  predicate NoOverflow(a: i32, b: i32) {
    -TWO_31 <= a as int + b as int < TWO_31
  }

  /**
    The hover test of `render`, on the mouse position relative to the image.
    When the right and bottom edges do not overflow, it holds exactly for
    points strictly inside the widget's rectangle: the edges do not count.
   */
  function Inside(w: Widget, px: i32, py: i32): (r: bool)
    ensures NoOverflow(w.x, w.width) && NoOverflow(w.y, w.height) ==>
      (r <==> w.x < px && px as int < w.x as int + w.width as int && w.y < py && py as int < w.y as int + w.height as int)
  {
    px > w.x && px < Add32(w.x, w.width) && py > w.y && py < Add32(w.y, w.height)
  }

  /** Without overflow, a widget one pixel wide or high is never hovered. */
  lemma ThinWidgetNeverHovered(w: Widget, px: i32, py: i32)
    requires NoOverflow(w.x, w.width) && NoOverflow(w.y, w.height)
    requires w.width <= 1 || w.height <= 1
    ensures !Inside(w, px, py)
  {
  }

  /** Whether two widget states differ at most in their hover flags. */
  predicate SameWidgetButHover(a: Widget, b: Widget) {
    a.x == b.x && a.y == b.y && a.width == b.width && a.height == b.height && a.canWrite == b.canWrite
  }

  /**
    One iteration of `render`'s widget loop: the widget remembers its old
    flag and takes the new test; no other widget and nothing else changes.
   */
  function HoverOne(objects: map<WidgetRef, Widget>, w: WidgetRef, px: i32, py: i32): (r: map<WidgetRef, Widget>)
    ensures r.Keys == objects.Keys
    ensures w in objects ==>
      && r[w].wasHovered == objects[w].hovered
      && r[w].hovered == Inside(objects[w], px, py)
      && SameWidgetButHover(objects[w], r[w])
    ensures forall v | v in objects && v != w :: r[v] == objects[v]
  {
    if w in objects then
      var st := objects[w];
      objects[w := st.(wasHovered := st.hovered, hovered := Inside(st, px, py))]
    else objects
  }

  /** `render`'s loop over `refs`: every listed widget's `hovered` flag becomes the new test. */
  function HoverAll(objects: map<WidgetRef, Widget>, refs: seq<WidgetRef>, px: i32, py: i32): (r: map<WidgetRef, Widget>)
    ensures r.Keys == objects.Keys
    ensures forall w | w in objects :: SameWidgetButHover(objects[w], r[w])
    ensures forall w | w in objects && w !in refs :: r[w] == objects[w]
    ensures forall w | w in objects && w in refs :: r[w].hovered == Inside(objects[w], px, py)
    decreases |refs|
  {
    if refs == [] then objects
    else HoverAll(HoverOne(objects, refs[0], px, py), refs[1..], px, py)
  }

  /**
    What `wasHovered` ends up holding: a widget listed once remembers its
    previous `hovered` flag; one listed several times is updated several
    times, so both of its flags end up equal to the new test.
   */
  lemma {:induction false} HoverAllRemembers(objects: map<WidgetRef, Widget>, refs: seq<WidgetRef>, px: i32, py: i32, w: WidgetRef)
    requires w in objects
    ensures multiset(refs)[w] == 1 ==> HoverAll(objects, refs, px, py)[w].wasHovered == objects[w].hovered
    ensures multiset(refs)[w] > 1 ==> HoverAll(objects, refs, px, py)[w].wasHovered == Inside(objects[w], px, py)
    decreases |refs|
  {
    if refs != [] {
      assert refs == [refs[0]] + refs[1..];
      assert multiset(refs)[w] == multiset(refs[1..])[w] + (if w == refs[0] then 1 else 0);
      HoverAllRemembers(HoverOne(objects, refs[0], px, py), refs[1..], px, py, w);
    }
  }

  /**
    The non-drawing part of `render`: every listed widget's hover flags are
    updated from the mouse position taken relative to the image.
   */
  function Render(s: Screen, mouseX: i32, mouseY: i32): (r: Screen)
    ensures r.widgets == s.widgets && r.tickableWidgets == s.tickableWidgets
    ensures r.objects.Keys == s.objects.Keys
    ensures Valid(s) ==> Valid(r)
    ensures forall w | w in s.widgets && w in s.objects ::
      r.objects[w].hovered == Inside(s.objects[w], Sub32(mouseX, Left(s)), Sub32(mouseY, Top(s)))
  {
    s.(objects := HoverAll(s.objects, s.widgets, Sub32(mouseX, Left(s)), Sub32(mouseY, Top(s))))
  }

  /**
    Two frames with the mouse standing still leave every listed widget with
    `wasHovered == hovered`: the second frame remembers what the first one
    computed, and nothing that the hover test reads has changed in between.
   */
  lemma RenderTwiceSettles(s: Screen, mouseX: i32, mouseY: i32, w: WidgetRef)
    requires w in s.widgets && w in s.objects
    ensures var r := Render(Render(s, mouseX, mouseY), mouseX, mouseY);
      r.objects[w].wasHovered == r.objects[w].hovered
  {
    var r1 := Render(s, mouseX, mouseY);
    var px, py := Sub32(mouseX, Left(s)), Sub32(mouseY, Top(s));
    assert Left(r1) == Left(s) && Top(r1) == Top(s);
    HoverAllRemembers(r1.objects, r1.widgets, px, py, w);
    assert multiset(s.widgets)[w] >= 1;
  }

  // ---------------------------------------------------------------------------
  // Keys and characters
  // ---------------------------------------------------------------------------

  /** A text field that currently accepts typing. */
  predicate Writable(s: Screen, w: WidgetRef) {
    w.textField && w in s.objects && s.objects[w].canWrite
  }

  predicate AnyWritable(s: Screen) {
    exists i :: 0 <= i < |s.widgets| && Writable(s, s.widgets[i])
  }

  /**
    `keyPressed(int)`: every widget is sent the key, with no early exit, and
    the key counts as handled exactly when some widget is a writable text field.
   */
  method KeyPressed(s: Screen, keyCode: i32) returns (handled: bool, notified: seq<WidgetRef>)
    ensures notified == s.widgets
    ensures handled <==> AnyWritable(s)
  {
    handled := false;
    notified := [];
    var i := 0;
    while i < |s.widgets|
      invariant 0 <= i <= |s.widgets|
      invariant notified == s.widgets[..i]
      invariant handled <==> exists j :: 0 <= j < i && Writable(s, s.widgets[j])
    {
      if Writable(s, s.widgets[i]) {
        handled := true;
      }
      notified := notified + [s.widgets[i]];
      i := i + 1;
    }
    assert s.widgets[..i] == s.widgets;
  }

  /** What `keyPressed(keyCode, scanCode, modifiers)` does after the widgets have seen the key. */
  datatype KeyOutcome = HandledByWidget | ClosedScreen | PassedToHost(result: bool)

  /**
    `keyPressed(keyCode, scanCode, modifiers)`: a writable text field takes
    the key before anything else; otherwise the inventory key closes the
    screen; otherwise the host's handler decides. Whether the key is the
    inventory key and what the host's handler returns are parameters.
   */
  method KeyPressedFull(s: Screen, keyCode: i32, scanCode: i32, modifiers: i32, isInventoryKey: bool, hostResult: bool)
    returns (result: bool, outcome: KeyOutcome, notified: seq<WidgetRef>)
    ensures notified == s.widgets
    ensures AnyWritable(s) ==> result && outcome == HandledByWidget
    ensures !AnyWritable(s) && isInventoryKey ==> result && outcome == ClosedScreen
    ensures !AnyWritable(s) && !isInventoryKey ==> result == hostResult && outcome == PassedToHost(hostResult)
  {
    var handled;
    handled, notified := KeyPressed(s, keyCode);
    if handled {
      return true, HandledByWidget, notified;
    }
    if isInventoryKey {
      return true, ClosedScreen, notified;
    }
    return hostResult, PassedToHost(hostResult), notified;
  }

  /**
    `keyReleased`: the loop hands the key to every widget, in list order; the
    screen never reports it handled.
   */
  method KeyReleased(s: Screen, keyCode: i32) returns (handled: bool, notified: seq<WidgetRef>)
    ensures !handled
    ensures notified == s.widgets
  {
    notified := s.widgets;
    handled := false;
  }

  /**
    `charTyped`: the loop hands the UTF-16 code unit to every widget, in list
    order; the screen never reports it handled.
   */
  method CharTyped(s: Screen, c: char16) returns (handled: bool, notified: seq<WidgetRef>)
    ensures !handled
    ensures notified == s.widgets
  {
    notified := s.widgets;
    handled := false;
  }
}

=== FILE: java_types.dfy ===
/**
  Java's fixed-width integers, its `char`, possibly-null references, and the
  two pieces of Java arithmetic the model needs: 32-bit wrap-around on
  `+`/`-` and integer division that truncates toward zero. Floating-point
  values are kept opaque (their raw bit patterns), since nothing in the
  model computes with them.
 */
module JavaTypes {

  const TWO_31: int := 0x8000_0000
  const TWO_32: int := 0x1_0000_0000

  newtype i8 = x: int | -0x80 <= x < 0x80
  newtype i16 = x: int | -0x8000 <= x < 0x8000
  newtype i32 = x: int | -0x8000_0000 <= x < 0x8000_0000
  newtype i64 = x: int | -0x8000_0000_0000_0000 <= x < 0x8000_0000_0000_0000

  /** A Java `char`: one UTF-16 code unit, surrogates included. */
  newtype char16 = x: int | 0 <= x < 0x1_0000

  /** A reference that may be null, or a value that may be absent. */
  datatype Option<+T> = None | Some(value: T)

  /** A Java `float`, kept as its IEEE 754 bit pattern and never computed with. */
  datatype Float32 = Float32(bits: bv32)

  /** A Java `double`, kept as its IEEE 754 bit pattern and never computed with. */
  datatype Float64 = Float64(bits: bv64)

  /** The `int` a Java expression yields when its mathematical value is `x`. */
  function Wrap32(x: int): (r: i32)
    ensures (r as int - x) % TWO_32 == 0
    ensures -TWO_31 <= x < TWO_31 ==> r as int == x
  {
    (((x + TWO_31) % TWO_32) - TWO_31) as i32
  }

  /** Java `a + b` on two `int`s. */
  function Add32(a: i32, b: i32): i32 {
    Wrap32(a as int + b as int)
  }

  /** Java `a - b` on two `int`s. */
  function Sub32(a: i32, b: i32): i32 {
    Wrap32(a as int - b as int)
  }

  /**
    `h` is `d / 2` rounded toward zero, as Java divides: never further from
    zero than the exact half, and less than one away from it.
   */
  predicate TruncatedHalf(h: int, d: int) {
    && (d >= 0 ==> 0 <= 2 * h <= d <= 2 * h + 1)
    && (d < 0 ==> 2 * h - 1 <= d <= 2 * h <= 0)
  }

  /** Java `a / 2` on an `int`: the quotient is rounded toward zero, not down. */
  function Half32(a: i32): (r: i32)
    ensures TruncatedHalf(r as int, a as int)
  {
    if a >= 0 then a / 2 else (-((-(a as int)) / 2)) as i32
  }
}

=== FILE: sync_properties.dfy ===
/**
  Properties of the `@SyncVariable` synchroniser that relate several calls or
  several fields: the dispatch order, which fields a write touches, which
  tag wins when two fields share a key, that an unsupported field is skipped
  without disturbing the others, the write-then-read round trip, and the
  `onLoad` flag that reading never consults.
 */
module SyncProperties {
  import opened JavaTypes
  import opened SyncVariable

  // ---------------------------------------------------------------------------
  // Dispatch
  // ---------------------------------------------------------------------------

  /** Where a conversion sits in `Priority`. */
  function Rank(route: Route): (k: nat)
    ensures k < |Priority| && Priority[k] == route
  {
    match route
    case Exact(b) =>
      (match b
       case IntT => 0 case FloatT => 1 case StringT => 2 case BooleanT => 3
       case DoubleT => 4 case LongT => 5 case ShortT => 6 case ByteT => 7)
    case LazyOptionalRoute => 8
    case SerializableRoute => 9
    case RegistryRoute => 10
    case Unsupported => 11
  }

  /** The source's `if ... else if` chain picks the first rule of `Priority` that applies. */
  lemma {:induction false} DispatchIsFirstMatch(t: FieldType, reg: Registry)
    ensures Dispatch(t, reg) == FirstMatch(Priority, t, reg)
  {
    var route := Dispatch(t, reg);
    var k := Rank(route);
    assert forall j | 0 <= j < k :: !Matches(Priority[j], t, reg);
    FirstMatchSkips(Priority, t, reg, k);
    assert Priority[k..][0] == route;
  }

  /** Rules that do not apply are passed over. */
  lemma {:induction false} FirstMatchSkips(rules: seq<Route>, t: FieldType, reg: Registry, n: nat)
    requires n <= |rules|
    requires forall k | 0 <= k < n :: !Matches(rules[k], t, reg)
    ensures FirstMatch(rules, t, reg) == FirstMatch(rules[n..], t, reg)
    decreases n
  {
    if n > 0 {
      FirstMatchSkips(rules[1..], t, reg, n - 1);
      assert rules[1..][n - 1..] == rules[n..];
    }
  }

  /**
    Reading and writing take the same branch for a field: the conversion
    `Dispatch` picks decides what both directions do.
   */
  lemma SameDispatchBothWays(f: Field, key: string, tags: Bag, reg: Registry, host: Host)
    ensures var route := Dispatch(TypeOf(f.value), reg);
      && (route.Exact? ==>
            && WriteAction(f.value, reg, host) == Put(PrimTag(f.value.p))
            && (f.settable ==> ReadAction(f, key, tags, reg, host) == Assign(Prim(HostGet(host, tags, key, route.b)))))
      && (route == LazyOptionalRoute && f.value.content.None? ==>
            WriteAction(f.value, reg, host) == Skip && ReadAction(f, key, tags, reg, host) == Keep)
      && (route == LazyOptionalRoute && f.value.content.Some? ==>
            && WriteAction(f.value, reg, host) == Put(host.serializeNBT(f.value.content.value))
            && ReadAction(f, key, tags, reg, host)
               == Assign(Lazy(f.value.lazyDecl, Some(host.deserializeNBT(f.value.content.value, Lookup(tags, key))))))
      && (route == SerializableRoute ==>
            && WriteAction(f.value, reg, host) == Put(host.serializeNBT(f.value.obj))
            && ReadAction(f, key, tags, reg, host) == Assign(Ref(f.value.decl, host.deserializeNBT(f.value.obj, Lookup(tags, key)))))
      && (route == RegistryRoute ==>
            && WriteAction(f.value, reg, host) == Put(CompoundTag(reg[f.value.decl.name].write(map[], f.value.obj)))
            && (f.settable ==> ReadAction(f, key, tags, reg, host)
                               == Assign(Ref(f.value.decl, reg[f.value.decl.name].read(host.getCompound(tags, key)))))
            && (!f.settable ==> ReadAction(f, key, tags, reg, host) == ReadFailed(IllegalAccess(key))))
      && (route == Unsupported <==> WriteAction(f.value, reg, host).WriteFailed?)
      && (route == Unsupported ==>
            && WriteAction(f.value, reg, host) == WriteFailed(UnknownType(TypeOf(f.value).cls, Writing))
            && ReadAction(f, key, tags, reg, host) == ReadFailed(UnknownType(TypeOf(f.value).cls, Reading)))
  {
  }

  // ---------------------------------------------------------------------------
  // The registry
  // ---------------------------------------------------------------------------

  /** A second registration for the same class replaces the first. */
  lemma LastRegistrationWins(reg: Registry, cls: TypeId, l1: Bag -> Obj, s1: (Bag, Obj) -> Bag, l2: Bag -> Obj, s2: (Bag, Obj) -> Bag)
    ensures RegisterSerializer(RegisterSerializer(reg, cls, l1, s1), cls, l2, s2) == RegisterSerializer(reg, cls, l2, s2)
  {
  }

  /**
    A field of a plain class nobody registered fails in both directions; once
    a serializer is registered for the class, writing stores a fresh compound
    filled by the saver, and reading assigns what the loader makes of
    `getCompound(key)`.
   */
  lemma RegisteringEnablesField(f: Field, key: string, tags: Bag, reg: Registry, host: Host, loader: Bag -> Obj, saver: (Bag, Obj) -> Bag)
    requires f.value.Ref? && !f.value.decl.serializable && f.value.decl.name !in reg
    ensures WriteAction(f.value, reg, host).WriteFailed?
    ensures ReadAction(f, key, tags, reg, host).ReadFailed?
    ensures var reg' := RegisterSerializer(reg, f.value.decl.name, loader, saver);
      && WriteAction(f.value, reg', host) == Put(CompoundTag(saver(map[], f.value.obj)))
      && (f.settable ==> ReadAction(f, key, tags, reg', host) == Assign(Ref(f.value.decl, loader(host.getCompound(tags, key)))))
  {
  }

  // ---------------------------------------------------------------------------
  // Writing
  // ---------------------------------------------------------------------------

  /** An annotation with its defaults takes part in every write mode and in reading. */
  lemma DefaultAnnotationSyncsEverywhere(f: Field, clazz: TypeId, name: string)
    requires f.owner == clazz && f.sync == Some(Annotation(name))
    ensures Selected(f.sync.value, Write) && Selected(f.sync.value, Packet) && !Selected(f.sync.value, Read)
    ensures Loads(f, clazz, false) && Loads(f, clazz, true)
  {
  }

  /** When several fields write the same key, the bag keeps the tag of the last of them. */
  lemma {:induction false} WriteLastWriterWins(fs: seq<Field>, clazz: TypeId, mode: Mode, acc: WriteResult, reg: Registry, host: Host, i: nat)
    requires i < |fs| && Puts(fs[i], clazz, mode, reg, host)
    requires forall j | i < j < |fs| && Puts(fs[j], clazz, mode, reg, host) :: fs[j].sync.value.name != fs[i].sync.value.name
    ensures var key := fs[i].sync.value.name;
      key in WriteFields(fs, clazz, mode, acc, reg, host).tags &&
      WriteFields(fs, clazz, mode, acc, reg, host).tags[key] == WriteAction(fs[i].value, reg, host).tag
    decreases |fs|
  {
    var acc' := WriteOne(fs[0], clazz, mode, acc, reg, host);
    if i == 0 {
      var key := fs[0].sync.value.name;
      assert key !in PutKeys(fs[1..], clazz, mode, reg, host) by {
        PutKeysMembership(fs[1..], clazz, mode, reg, host, key);
        assert forall j | 0 <= j < |fs[1..]| :: fs[1..][j] == fs[j + 1];
      }
    } else {
      WriteLastWriterWins(fs[1..], clazz, mode, acc', reg, host, i - 1);
    }
  }

  /** The tags a write produces do not depend on errors logged before it. */
  lemma {:induction false} WriteTagsIgnoreLog(fs: seq<Field>, clazz: TypeId, mode: Mode, tags: Bag, log1: seq<SyncError>, log2: seq<SyncError>, reg: Registry, host: Host)
    ensures WriteFields(fs, clazz, mode, WriteResult(tags, log1), reg, host).tags
         == WriteFields(fs, clazz, mode, WriteResult(tags, log2), reg, host).tags
    decreases |fs|
  {
    if fs != [] {
      var a1 := WriteOne(fs[0], clazz, mode, WriteResult(tags, log1), reg, host);
      var a2 := WriteOne(fs[0], clazz, mode, WriteResult(tags, log2), reg, host);
      assert a1.tags == a2.tags;
      WriteTagsIgnoreLog(fs[1..], clazz, mode, a1.tags, a1.log, a2.log, reg, host);
    }
  }

  /**
    A field of an unsupported type is skipped: the bag ends up exactly as if
    the field were not there, so every other field is still written, and the
    field's error is reported.
   */
  lemma {:induction false} WriteSkipsFailingField(fs: seq<Field>, clazz: TypeId, mode: Mode, acc: WriteResult, reg: Registry, host: Host, i: nat)
    requires i < |fs| && WriteFails(fs[i], clazz, mode, reg, host)
    ensures WriteFields(fs, clazz, mode, acc, reg, host).tags
         == WriteFields(fs[..i] + fs[i + 1..], clazz, mode, acc, reg, host).tags
    ensures WriteAction(fs[i].value, reg, host).error in WriteFields(fs, clazz, mode, acc, reg, host).log
    decreases |fs|
  {
    ErrorInWriteErrors(fs, clazz, mode, reg, host, i);
    var acc' := WriteOne(fs[0], clazz, mode, acc, reg, host);
    if i == 0 {
      assert fs[..0] + fs[1..] == fs[1..];
      assert acc'.tags == acc.tags;
      WriteTagsIgnoreLog(fs[1..], clazz, mode, acc.tags, acc'.log, acc.log, reg, host);
    } else {
      var rest := fs[..i] + fs[i + 1..];
      assert rest[0] == fs[0];
      assert rest[1..] == fs[1..][..i - 1] + fs[1..][i..];
      assert WriteFields(rest, clazz, mode, acc, reg, host)
          == WriteFields(rest[1..], clazz, mode, acc', reg, host);
      WriteSkipsFailingField(fs[1..], clazz, mode, acc', reg, host, i - 1);
    }
  }

  /** The error of a field that fails to write is among the errors the write reports. */
  lemma {:induction false} ErrorInWriteErrors(fs: seq<Field>, clazz: TypeId, mode: Mode, reg: Registry, host: Host, i: nat)
    requires i < |fs| && WriteFails(fs[i], clazz, mode, reg, host)
    ensures WriteAction(fs[i].value, reg, host).error in WriteErrors(fs, clazz, mode, reg, host)
    decreases |fs|
  {
    if i > 0 {
      ErrorInWriteErrors(fs[1..], clazz, mode, reg, host, i - 1);
    }
  }

  /**
    The example of a save: an `int` field "Count" = 5 that is saved and a
    string field "Label" that is not; saving into an empty bag gives a bag
    holding only "Count".
   */
  lemma SaveExample(reg: Registry, host: Host)
    ensures var inst := Instance("Tile", [
              Field("Tile", Some(Sync("Count", true, true, true)), true, Prim(IntV(5))),
              Field("Tile", Some(Sync("Label", true, false, true)), true, Prim(StringV("x")))]);
      WriteSyncVars("Tile", inst, map[], Write, reg, host) == WriteResult(map["Count" := IntTag(5)], [])
  {
  }

  // ---------------------------------------------------------------------------
  // Reading
  // ---------------------------------------------------------------------------

  /** A read reports an error exactly when some loaded field fails. */
  lemma {:induction false} ReadErrorsEmpty(fs: seq<Field>, clazz: TypeId, tags: Bag, honorOnLoad: bool, reg: Registry, host: Host)
    ensures ReadErrors(fs, clazz, tags, honorOnLoad, reg, host) == [] <==>
      forall j | 0 <= j < |fs| && Loads(fs[j], clazz, honorOnLoad) ::
        !ReadAction(fs[j], fs[j].sync.value.name, tags, reg, host).ReadFailed?
    decreases |fs|
  {
    if fs != [] {
      ReadErrorsEmpty(fs[1..], clazz, tags, honorOnLoad, reg, host);
      assert forall j | 0 <= j < |fs[1..]| :: fs[1..][j] == fs[j + 1];
    }
  }

  /**
    What `readSyncVars` does to each field it visits, for any bag: it assigns
    what the field's conversion reads; a settable primitive or string field
    gets what the matching getter returns for its key; an empty
    `LazyOptional` is kept; and a field that fails is kept and its error is
    reported.
   */
  lemma ReadSyncVarsAssigns(clazz: TypeId, inst: Instance, tags: Bag, reg: Registry, host: Host, i: nat)
    requires i < |inst.fields| && Visited(inst.fields[i], clazz)
    ensures var f, r := inst.fields[i], ReadSyncVars(clazz, inst, tags, reg, host);
      var step := ReadAction(f, f.sync.value.name, tags, reg, host);
      && (step.Assign? ==> r.inst.fields[i] == f.(value := step.v))
      && (step.Keep? ==> r.inst.fields[i] == f)
      && (step.ReadFailed? ==> r.inst.fields[i] == f && step.error in r.log)
      && (f.settable && f.value.Prim? ==>
            r.inst.fields[i].value == Prim(HostGet(host, tags, f.sync.value.name, BuiltinOf(f.value.p))))
  {
    var f := inst.fields[i];
    if ReadAction(f, f.sync.value.name, tags, reg, host).ReadFailed? {
      ErrorInReadErrors(inst.fields, clazz, tags, false, reg, host, i);
    }
  }

  /**
    A field that fails to read is left as it was, its error is reported, and
    every other field reads exactly as if the failing field were not there.
   */
  lemma ReadSkipsFailingField(clazz: TypeId, inst: Instance, tags: Bag, reg: Registry, host: Host, i: nat)
    requires i < |inst.fields| && Visited(inst.fields[i], clazz)
    requires ReadAction(inst.fields[i], inst.fields[i].sync.value.name, tags, reg, host).ReadFailed?
    ensures var r := ReadSyncVars(clazz, inst, tags, reg, host);
      && r.inst.fields[i] == inst.fields[i]
      && ReadAction(inst.fields[i], inst.fields[i].sync.value.name, tags, reg, host).error in r.log
      && r.inst.fields[..i] + r.inst.fields[i + 1..]
         == ReadSyncVars(clazz, Instance(inst.cls, inst.fields[..i] + inst.fields[i + 1..]), tags, reg, host).inst.fields
  {
    var fs := inst.fields;
    var r := ReadFields(fs, clazz, tags, false, reg, host);
    var rest := fs[..i] + fs[i + 1..];
    var r' := ReadFields(rest, clazz, tags, false, reg, host);
    ErrorInReadErrors(fs, clazz, tags, false, reg, host, i);
    assert r.fields[..i] + r.fields[i + 1..] == r'.fields by {
      forall k | 0 <= k < |rest|
        ensures (r.fields[..i] + r.fields[i + 1..])[k] == r'.fields[k]
      {
        if k < i { assert rest[k] == fs[k]; } else { assert rest[k] == fs[k + 1]; }
      }
    }
  }

  lemma {:induction false} ErrorInReadErrors(fs: seq<Field>, clazz: TypeId, tags: Bag, honorOnLoad: bool, reg: Registry, host: Host, i: nat)
    requires i < |fs| && Loads(fs[i], clazz, honorOnLoad)
    requires ReadAction(fs[i], fs[i].sync.value.name, tags, reg, host).ReadFailed?
    ensures ReadAction(fs[i], fs[i].sync.value.name, tags, reg, host).error in ReadErrors(fs, clazz, tags, honorOnLoad, reg, host)
    decreases |fs|
  {
    if i > 0 {
      ErrorInReadErrors(fs[1..], clazz, tags, honorOnLoad, reg, host, i - 1);
    }
  }

  // ---------------------------------------------------------------------------
  // The round trip
  // ---------------------------------------------------------------------------

  /** The visited fields of `fs` have pairwise distinct keys. */
  predicate DistinctKeys(fs: seq<Field>, clazz: TypeId) {
    forall i, j | 0 <= i < j < |fs| && Visited(fs[i], clazz) && Visited(fs[j], clazz) ::
      fs[i].sync.value.name != fs[j].sync.value.name
  }

  /**
    A saved primitive or string field whose key no later field overwrites is
    restored by reading back the bag, whether or not reading honours `onLoad`.
   */
  lemma RoundTripField(clazz: TypeId, fs: seq<Field>, tags: Bag, honorOnLoad: bool, reg: Registry, host: Host, i: nat)
    requires HostInvertsPut(host)
    requires i < |fs| && Visited(fs[i], clazz) && fs[i].value.Prim? && fs[i].sync.value.onSave
    requires forall j | i < j < |fs| && Puts(fs[j], clazz, Write, reg, host) :: fs[j].sync.value.name != fs[i].sync.value.name
    ensures var saved := WriteFields(fs, clazz, Write, WriteResult(tags, []), reg, host).tags;
      ReadFields(fs, clazz, saved, honorOnLoad, reg, host).fields[i] == fs[i]
  {
    var saved := WriteFields(fs, clazz, Write, WriteResult(tags, []), reg, host).tags;
    var key := fs[i].sync.value.name;
    var p := fs[i].value.p;
    WriteLastWriterWins(fs, clazz, Write, WriteResult(tags, []), reg, host, i);
    assert saved[key] == PrimTag(p);
    assert HostGet(host, saved, key, BuiltinOf(p)) == p;
  }

  /**
    Saving an object whose synchronised fields are all saved primitives or
    strings with distinct keys, then loading the bag back, gives the object
    back; nothing is reported unless a field cannot be assigned.
   */
  lemma RoundTrip(clazz: TypeId, inst: Instance, tags: Bag, reg: Registry, host: Host)
    requires HostInvertsPut(host)
    requires forall j | 0 <= j < |inst.fields| && Visited(inst.fields[j], clazz) ::
      inst.fields[j].value.Prim? && inst.fields[j].sync.value.onSave
    requires DistinctKeys(inst.fields, clazz)
    ensures var saved := WriteSyncVars(clazz, inst, tags, Write, reg, host).tags;
      && ReadSyncVars(clazz, inst, saved, reg, host).inst == inst
      && ReadSyncVarsHonoringOnLoad(clazz, inst, saved, reg, host).inst == inst
    ensures var saved := WriteSyncVars(clazz, inst, tags, Write, reg, host).tags;
      (forall j | 0 <= j < |inst.fields| && Visited(inst.fields[j], clazz) :: inst.fields[j].settable) ==>
        ReadSyncVars(clazz, inst, saved, reg, host).log == []
  {
    var saved := WriteSyncVars(clazz, inst, tags, Write, reg, host).tags;
    RoundTripFields(clazz, inst.fields, tags, false, reg, host);
    RoundTripFields(clazz, inst.fields, tags, true, reg, host);
    ReadErrorsEmpty(inst.fields, clazz, saved, false, reg, host);
  }

  /** `RoundTrip` on the field list, for either reading variant. */
  lemma RoundTripFields(clazz: TypeId, fs: seq<Field>, tags: Bag, honorOnLoad: bool, reg: Registry, host: Host)
    requires HostInvertsPut(host)
    requires forall j | 0 <= j < |fs| && Visited(fs[j], clazz) :: fs[j].value.Prim? && fs[j].sync.value.onSave
    requires DistinctKeys(fs, clazz)
    ensures var saved := WriteFields(fs, clazz, Write, WriteResult(tags, []), reg, host).tags;
      ReadFields(fs, clazz, saved, honorOnLoad, reg, host).fields == fs
  {
    var saved := WriteFields(fs, clazz, Write, WriteResult(tags, []), reg, host).tags;
    var r := ReadFields(fs, clazz, saved, honorOnLoad, reg, host);
    forall i | 0 <= i < |fs|
      ensures r.fields[i] == fs[i]
    {
      if Visited(fs[i], clazz) {
        RoundTripField(clazz, fs, tags, honorOnLoad, reg, host, i);
      }
    }
  }

  // ---------------------------------------------------------------------------
  // onLoad
  // ---------------------------------------------------------------------------

  /** Two fields that differ at most in their `onLoad` flag. */
  predicate SameButOnLoad(f: Field, g: Field) {
    && f.owner == g.owner && f.settable == g.settable && f.value == g.value
    && f.sync.Some? == g.sync.Some?
    && (f.sync.Some? ==> f.sync.value.(onLoad := g.sync.value.onLoad) == g.sync.value)
  }

  /** Reading one field does not look at its `onLoad` flag. */
  lemma ReadOneIgnoresOnLoad(f: Field, g: Field, clazz: TypeId, tags: Bag, reg: Registry, host: Host)
    requires SameButOnLoad(f, g)
    ensures ReadOne(f, clazz, tags, false, reg, host).0.value == ReadOne(g, clazz, tags, false, reg, host).0.value
    ensures ReadOne(f, clazz, tags, false, reg, host).1 == ReadOne(g, clazz, tags, false, reg, host).1
  {
  }

  lemma {:induction false} ReadErrorsIgnoreOnLoad(fs: seq<Field>, gs: seq<Field>, clazz: TypeId, tags: Bag, reg: Registry, host: Host)
    requires |fs| == |gs| && forall i | 0 <= i < |fs| :: SameButOnLoad(fs[i], gs[i])
    ensures ReadErrors(fs, clazz, tags, false, reg, host) == ReadErrors(gs, clazz, tags, false, reg, host)
    decreases |fs|
  {
    if fs != [] {
      ReadOneIgnoresOnLoad(fs[0], gs[0], clazz, tags, reg, host);
      assert forall i | 0 <= i < |fs[1..]| :: fs[1..][i] == fs[i + 1] && gs[1..][i] == gs[i + 1];
      ReadErrorsIgnoreOnLoad(fs[1..], gs[1..], clazz, tags, reg, host);
    }
  }

  /**
    As written, reading never consults `onLoad`: changing the flag on any
    field changes neither the values read nor the errors reported.
   */
  lemma ReadIgnoresOnLoad(clazz: TypeId, inst: Instance, other: Instance, tags: Bag, reg: Registry, host: Host)
    requires |inst.fields| == |other.fields|
    requires forall i | 0 <= i < |inst.fields| :: SameButOnLoad(inst.fields[i], other.fields[i])
    ensures var r1 := ReadSyncVars(clazz, inst, tags, reg, host);
      var r2 := ReadSyncVars(clazz, other, tags, reg, host);
      && (forall i | 0 <= i < |inst.fields| :: r1.inst.fields[i].value == r2.inst.fields[i].value)
      && r1.log == r2.log
  {
    forall i | 0 <= i < |inst.fields|
      ensures ReadOne(inst.fields[i], clazz, tags, false, reg, host).0.value
           == ReadOne(other.fields[i], clazz, tags, false, reg, host).0.value
    {
      ReadOneIgnoresOnLoad(inst.fields[i], other.fields[i], clazz, tags, reg, host);
    }
    ReadErrorsIgnoreOnLoad(inst.fields, other.fields, clazz, tags, reg, host);
  }

  /**
    The discrepancy, on one input: an `int` field annotated with
    `onLoad = false` is still loaded from the bag.
   */
  lemma OnLoadFalseStillLoads(reg: Registry, host: Host)
    requires HostInvertsPut(host)
    ensures var inst := Instance("Tile", [Field("Tile", Some(Sync("Count", false, true, true)), true, Prim(IntV(0)))]);
      ReadSyncVars("Tile", inst, map["Count" := IntTag(5)], reg, host).inst.fields[0].value == Prim(IntV(5))
  {
    var tags := map["Count" := IntTag(5)];
    assert tags["Count"] == PrimTag(IntV(5));
    assert HostGet(host, tags, "Count", IntT) == IntV(5);
  }

  /** With the correction, the same field keeps its value. */
  lemma OnLoadFalseKeptWhenHonored(reg: Registry, host: Host)
    ensures var inst := Instance("Tile", [Field("Tile", Some(Sync("Count", false, true, true)), true, Prim(IntV(0)))]);
      ReadSyncVarsHonoringOnLoad("Tile", inst, map["Count" := IntTag(5)], reg, host).inst == inst
  {
  }
}

=== FILE: sync_variable.dfy ===
/**
  The `@SyncVariable` field synchroniser: it copies values between the
  annotated fields of an object and an NBT compound (a string-keyed bag of
  tags), in both directions.

  Reflection is replaced by an explicit description of the object: an
  `Instance` lists every field the object has (its own and inherited ones),
  each with the class that declares it, its annotation if any, whether
  reflection may assign it, and its current value. The process-wide serializer
  table is an explicit `Registry` value, and the host's tag getters and the
  objects' own `serializeNBT`/`deserializeNBT` are functions held in a `Host`
  value. Errors that the source catches and prints are collected in a log.
 */
module SyncVariable {
  import opened JavaTypes

  /** A Java class, by name. */
  type TypeId = string

  /** An NBT tag. Array tags are not distinguished from lists here. */
  datatype Tag =
    | ByteTag(byteVal: i8)
    | ShortTag(shortVal: i16)
    | IntTag(intVal: i32)
    | LongTag(longVal: i64)
    | FloatTag(floatVal: Float32)
    | DoubleTag(doubleVal: Float64)
    | StringTag(stringVal: string)
    | ListTag(items: seq<Tag>)
    | CompoundTag(entries: map<string, Tag>)

  /** The contents of a `CompoundNBT`: at most one tag per key. */
  type Bag = map<string, Tag>

  /** `tags.get(name)`: the tag stored under the key, or null. */
  function Lookup(tags: Bag, key: string): (r: Option<Tag>)
    ensures r.Some? <==> key in tags
    ensures r.Some? ==> r.value == tags[key]
  {
    if key in tags then Some(tags[key]) else None
  }

  // ---------------------------------------------------------------------------
  // The annotation and the sync mode
  // ---------------------------------------------------------------------------

  /** The values of one `@SyncVariable` annotation. */
  datatype Sync = Sync(name: string, onLoad: bool, onSave: bool, onPacket: bool)

  /** `@SyncVariable(name = ...)` with every flag left at its default. */
  function Annotation(name: string): Sync {
    Sync(name, true, true, true)
  }

  /** `SyncVariable.Type`. */
  datatype Mode = Read | Write | Packet

  /**
    Whether a write in the given mode includes a field with this annotation:
    a save takes the `onSave` fields, a packet the `onPacket` fields, and the
    `READ` mode writes nothing.
   */
  function Selected(a: Sync, mode: Mode): (r: bool)
    ensures mode == Read ==> !r
    ensures mode == Write ==> (r <==> a.onSave)
    ensures mode == Packet ==> (r <==> a.onPacket)
  {
    (mode == Write && a.onSave) || (mode == Packet && a.onPacket)
  }

  // ---------------------------------------------------------------------------
  // Field types and values
  // ---------------------------------------------------------------------------

  /** The eight field types the source matches exactly. */
  datatype Builtin = IntT | FloatT | StringT | BooleanT | DoubleT | LongT | ShortT | ByteT

  /** A value of one of the eight exactly-matched types. */
  datatype PrimValue =
    | IntV(i: i32)
    | FloatV(f: Float32)
    | StringV(s: string)
    | BooleanV(z: bool)
    | DoubleV(d: Float64)
    | LongV(l: i64)
    | ShortV(h: i16)
    | ByteV(b: i8)

  function BuiltinOf(p: PrimValue): Builtin {
    match p
    case IntV(_) => IntT
    case FloatV(_) => FloatT
    case StringV(_) => StringT
    case BooleanV(_) => BooleanT
    case DoubleV(_) => DoubleT
    case LongV(_) => LongT
    case ShortV(_) => ShortT
    case ByteV(_) => ByteT
  }

  /** A declared reference type, with whether `INBTSerializable` is assignable from it. */
  datatype ClassInfo = ClassInfo(name: TypeId, serializable: bool)

  /**
    An object that is not a primitive or a string. What its state is made of is
    up to its class; the model keeps it as an uninterpreted tag.
   */
  datatype Obj = Obj(cls: TypeId, state: Tag)

  /**
    The value held by a field, together with what the field's declared type
    says about it: a primitive or string, a `LazyOptional` (empty or holding an
    object), or any other reference.
   */
  datatype Value =
    | Prim(p: PrimValue)
    | Lazy(lazyDecl: ClassInfo, content: Option<Obj>)
    | Ref(decl: ClassInfo, obj: Obj)

  /** `field.getType()`, as far as the dispatch inspects it. */
  datatype FieldType =
    | BuiltinType(b: Builtin)
    | ClassType(cls: TypeId, lazyOptional: bool, serializable: bool)

  function TypeOf(v: Value): FieldType {
    match v
    case Prim(p) => BuiltinType(BuiltinOf(p))
    case Lazy(d, _) => ClassType(d.name, true, d.serializable)
    case Ref(d, _) => ClassType(d.name, false, d.serializable)
  }

  /**
    One field of an object: the class that declares it, its `@SyncVariable`
    annotation if it has one, whether reflection may assign it (a `static
    final` field may not), and its current value.
   */
  datatype Field = Field(owner: TypeId, sync: Option<Sync>, settable: bool, value: Value)

  /** An object: its runtime class and all its fields, inherited ones included. */
  datatype Instance = Instance(cls: TypeId, fields: seq<Field>)

  /** Whether a pass over `clazz.getDeclaredFields()` looks at this field's annotation. */
  predicate Visited(f: Field, clazz: TypeId) {
    f.owner == clazz && f.sync.Some?
  }

  // ---------------------------------------------------------------------------
  // The host
  // ---------------------------------------------------------------------------

  /**
    Behaviour that lives outside the library: the `CompoundNBT` getters (which
    return a default for a missing or mismatching key) and the
    `INBTSerializable` methods of the objects held in fields.
   */
  datatype Host = Host(
    getInt: (Bag, string) -> i32,
    getFloat: (Bag, string) -> Float32,
    getString: (Bag, string) -> string,
    getBoolean: (Bag, string) -> bool,
    getDouble: (Bag, string) -> Float64,
    getLong: (Bag, string) -> i64,
    getShort: (Bag, string) -> i16,
    getByte: (Bag, string) -> i8,
    getCompound: (Bag, string) -> Bag,
    serializeNBT: Obj -> Tag,
    deserializeNBT: (Obj, Option<Tag>) -> Obj)

  /** The tag `putInt`, `putFloat`, ... store for a value; `putBoolean` stores a byte 1 or 0. */
  function PrimTag(p: PrimValue): Tag {
    match p
    case IntV(i) => IntTag(i)
    case FloatV(f) => FloatTag(f)
    case StringV(s) => StringTag(s)
    case BooleanV(z) => ByteTag(if z then 1 else 0)
    case DoubleV(d) => DoubleTag(d)
    case LongV(l) => LongTag(l)
    case ShortV(h) => ShortTag(h)
    case ByteV(b) => ByteTag(b)
  }

  /** `getInt`, `getFloat`, ... chosen by the field's type. */
  function HostGet(host: Host, tags: Bag, key: string, b: Builtin): (r: PrimValue)
    ensures BuiltinOf(r) == b
  {
    match b
    case IntT => IntV(host.getInt(tags, key))
    case FloatT => FloatV(host.getFloat(tags, key))
    case StringT => StringV(host.getString(tags, key))
    case BooleanT => BooleanV(host.getBoolean(tags, key))
    case DoubleT => DoubleV(host.getDouble(tags, key))
    case LongT => LongV(host.getLong(tags, key))
    case ShortT => ShortV(host.getShort(tags, key))
    case ByteT => ByteV(host.getByte(tags, key))
  }

  /** The host's getters give back what the matching `put` stored. */
  ghost predicate HostInvertsPut(host: Host) {
    forall tags: Bag, key: string, p: PrimValue | key in tags && tags[key] == PrimTag(p) ::
      HostGet(host, tags, key, BuiltinOf(p)) == p
  }

  // ---------------------------------------------------------------------------
  // The serializer registry
  // ---------------------------------------------------------------------------

  /** An `NBTSerializer`: reads a value from a compound, writes a value into one. */
  datatype Serializer = Serializer(read: Bag -> Obj, write: (Bag, Obj) -> Bag)

  /** `Helper.SERIALIZERS`. */
  type Registry = map<TypeId, Serializer>

  /** `Helper.registerSerializer`: the class now maps to the given loader and saver. */
  function RegisterSerializer(reg: Registry, cls: TypeId, loader: Bag -> Obj, saver: (Bag, Obj) -> Bag): (r: Registry)
    ensures r.Keys == reg.Keys + {cls}
    ensures r[cls].read == loader && r[cls].write == saver
    ensures forall c | c in reg && c != cls :: r[c] == reg[c]
  {
    reg[cls := Serializer(loader, saver)]
  }

  // ---------------------------------------------------------------------------
  // Type dispatch
  // ---------------------------------------------------------------------------

  /** The conversions the source tries, in the order it tries them. */
  datatype Route = Exact(b: Builtin) | LazyOptionalRoute | SerializableRoute | RegistryRoute | Unsupported

  /** Whether a conversion applies to a field type. */
  predicate Matches(route: Route, t: FieldType, reg: Registry) {
    match route
    case Exact(b) => t == BuiltinType(b)
    case LazyOptionalRoute => t.ClassType? && t.lazyOptional
    case SerializableRoute => t.ClassType? && t.serializable
    case RegistryRoute => t.ClassType? && t.cls in reg
    case Unsupported => true
  }

  /** The order of the source's `if ... else if` chain, in both directions. */
  const Priority: seq<Route> := [
    Exact(IntT), Exact(FloatT), Exact(StringT), Exact(BooleanT),
    Exact(DoubleT), Exact(LongT), Exact(ShortT), Exact(ByteT),
    LazyOptionalRoute, SerializableRoute, RegistryRoute, Unsupported
  ]

  /** The first rule of `rules` that applies, reading the list front to back. */
  function FirstMatch(rules: seq<Route>, t: FieldType, reg: Registry): Route {
    if rules == [] then Unsupported
    else if Matches(rules[0], t, reg) then rules[0]
    else FirstMatch(rules[1..], t, reg)
  }

  /** The conversion the source picks for a field of type `t`. */
  function Dispatch(t: FieldType, reg: Registry): (r: Route)
    ensures Matches(r, t, reg)
    ensures r == Unsupported <==> t.ClassType? && !t.lazyOptional && !t.serializable && t.cls !in reg
  {
    match t
    case BuiltinType(b) => Exact(b)
    case ClassType(c, lazy, serializable) =>
      if lazy then LazyOptionalRoute
      else if serializable then SerializableRoute
      else if c in reg then RegistryRoute
      else Unsupported
  }

  // ---------------------------------------------------------------------------
  // Errors
  // ---------------------------------------------------------------------------

  datatype Direction = Reading | Writing

  /** What the source prints a stack trace for and then skips. */
  datatype SyncError =
    | UnknownType(cls: TypeId, dir: Direction)   // "Don't know how to read/write type ..."
    | IllegalAccess(key: string)                 // reflection refused to assign the field

  // ---------------------------------------------------------------------------
  // writeSyncVars
  // ---------------------------------------------------------------------------

  /** What writing one selected field does to the bag. */
  datatype WriteStep = Put(tag: Tag) | Skip | WriteFailed(error: SyncError)

  /**
    The branch of the write chain that `Dispatch` picks decides the step: an
    exact type is put with its own `put`, a `LazyOptional` stores its content's
    `serializeNBT()` or nothing when empty, an `INBTSerializable` stores its
    `serializeNBT()`, a registered class stores what its saver writes into a
    fresh compound, and any other type is reported and skipped.
   */
  function WriteAction(v: Value, reg: Registry, host: Host): (r: WriteStep)
    ensures r.WriteFailed? <==> Dispatch(TypeOf(v), reg) == Unsupported
    ensures r.WriteFailed? ==> r.error == UnknownType(TypeOf(v).cls, Writing)
    ensures r.Skip? <==> v.Lazy? && v.content.None?
    ensures Dispatch(TypeOf(v), reg).Exact? ==> r == Put(PrimTag(v.p))
    ensures Dispatch(TypeOf(v), reg) == LazyOptionalRoute && v.content.Some? ==>
      r == Put(host.serializeNBT(v.content.value))
    ensures Dispatch(TypeOf(v), reg) == SerializableRoute ==> r == Put(host.serializeNBT(v.obj))
    ensures Dispatch(TypeOf(v), reg) == RegistryRoute ==>
      r == Put(CompoundTag(reg[TypeOf(v).cls].write(map[], v.obj)))
  {
    match v
    case Prim(p) => Put(PrimTag(p))
    case Lazy(_, content) =>
      if content.Some? then Put(host.serializeNBT(content.value)) else Skip
    case Ref(decl, o) =>
      if decl.serializable then Put(host.serializeNBT(o))
      else if decl.name in reg then Put(CompoundTag(reg[decl.name].write(map[], o)))
      else WriteFailed(UnknownType(decl.name, Writing))
  }

  /** Whether a write in `mode` over `clazz` stores a tag for this field. */
  predicate Puts(f: Field, clazz: TypeId, mode: Mode, reg: Registry, host: Host) {
    Visited(f, clazz) && Selected(f.sync.value, mode) && WriteAction(f.value, reg, host).Put?
  }

  /** Whether a write in `mode` over `clazz` reports an error for this field. */
  predicate WriteFails(f: Field, clazz: TypeId, mode: Mode, reg: Registry, host: Host) {
    Visited(f, clazz) && Selected(f.sync.value, mode) && WriteAction(f.value, reg, host).WriteFailed?
  }

  /** The keys a write stores a tag under. */
  function PutKeys(fs: seq<Field>, clazz: TypeId, mode: Mode, reg: Registry, host: Host): set<string> {
    if fs == [] then {}
    else
      (if Puts(fs[0], clazz, mode, reg, host) then {fs[0].sync.value.name} else {})
      + PutKeys(fs[1..], clazz, mode, reg, host)
  }

  /** A key is written exactly when some field that stores a tag has it. */
  lemma {:induction false} PutKeysMembership(fs: seq<Field>, clazz: TypeId, mode: Mode, reg: Registry, host: Host, k: string)
    ensures k in PutKeys(fs, clazz, mode, reg, host) <==>
      exists j :: 0 <= j < |fs| && Puts(fs[j], clazz, mode, reg, host) && fs[j].sync.value.name == k
    decreases |fs|
  {
    if fs != [] {
      PutKeysMembership(fs[1..], clazz, mode, reg, host, k);
      if exists j :: 0 <= j < |fs| && Puts(fs[j], clazz, mode, reg, host) && fs[j].sync.value.name == k {
        var j :| 0 <= j < |fs| && Puts(fs[j], clazz, mode, reg, host) && fs[j].sync.value.name == k;
        if j > 0 { assert fs[1..][j - 1] == fs[j]; }
      }
    }
  }

  /** The errors a write reports, one per failing field, in field order. */
  function WriteErrors(fs: seq<Field>, clazz: TypeId, mode: Mode, reg: Registry, host: Host): seq<SyncError> {
    if fs == [] then []
    else
      (if WriteFails(fs[0], clazz, mode, reg, host) then [WriteAction(fs[0].value, reg, host).error] else [])
      + WriteErrors(fs[1..], clazz, mode, reg, host)
  }

  /** The bag after a write, and the errors it printed. */
  datatype WriteResult = WriteResult(tags: Bag, log: seq<SyncError>)

  /** One iteration of the loop over the declared fields. */
  function WriteOne(f: Field, clazz: TypeId, mode: Mode, acc: WriteResult, reg: Registry, host: Host): WriteResult {
    if Visited(f, clazz) && Selected(f.sync.value, mode) then
      match WriteAction(f.value, reg, host)
      case Put(t) => WriteResult(acc.tags[f.sync.value.name := t], acc.log)
      case Skip => acc
      case WriteFailed(e) => WriteResult(acc.tags, acc.log + [e])
    else acc
  }

  /** The loop over the declared fields, from `fs[0]` on. */
  function WriteFields(fs: seq<Field>, clazz: TypeId, mode: Mode, acc: WriteResult, reg: Registry, host: Host): (r: WriteResult)
    ensures r.tags.Keys == acc.tags.Keys + PutKeys(fs, clazz, mode, reg, host)
    ensures forall k | k in acc.tags && k !in PutKeys(fs, clazz, mode, reg, host) :: r.tags[k] == acc.tags[k]
    ensures r.log == acc.log + WriteErrors(fs, clazz, mode, reg, host)
    decreases |fs|
  {
    if fs == [] then acc
    else
      WriteFields(fs[1..], clazz, mode, WriteOne(fs[0], clazz, mode, acc, reg, host), reg, host)
  }

  /**
    `Helper.writeSyncVars(clazz, obj, tags, syncType)`: stores every field that
    `clazz` declares, that is annotated and that the mode selects, and returns
    the bag.
   */
  function WriteSyncVars(clazz: TypeId, inst: Instance, tags: Bag, mode: Mode, reg: Registry, host: Host): (r: WriteResult)
    ensures mode == Read ==> r == WriteResult(tags, [])
    ensures tags.Keys <= r.tags.Keys
    ensures forall j | 0 <= j < |inst.fields| && Puts(inst.fields[j], clazz, mode, reg, host) ::
              inst.fields[j].sync.value.name in r.tags
    ensures forall k | k in r.tags && (k !in tags || r.tags[k] != tags[k]) ::
              exists j :: 0 <= j < |inst.fields| && Visited(inst.fields[j], clazz)
                && inst.fields[j].sync.value.name == k && Selected(inst.fields[j].sync.value, mode)
    ensures r.log == WriteErrors(inst.fields, clazz, mode, reg, host)
  {
    var r := WriteFields(inst.fields, clazz, mode, WriteResult(tags, []), reg, host);
    assert forall k :: k in PutKeys(inst.fields, clazz, mode, reg, host) <==>
      exists j :: 0 <= j < |inst.fields| && Puts(inst.fields[j], clazz, mode, reg, host) && inst.fields[j].sync.value.name == k
    by {
      forall k { PutKeysMembership(inst.fields, clazz, mode, reg, host, k); }
    }
    assert mode == Read ==> WriteErrors(inst.fields, clazz, mode, reg, host) == [] by {
      if mode == Read { WriteErrorsNeedSelection(inst.fields, clazz, mode, reg, host); }
    }
    r
  }

  /** A write reports no error exactly when no field it visits and selects fails. */
  lemma {:induction false} WriteErrorsNeedSelection(fs: seq<Field>, clazz: TypeId, mode: Mode, reg: Registry, host: Host)
    ensures WriteErrors(fs, clazz, mode, reg, host) == [] <==>
      forall j | 0 <= j < |fs| :: !WriteFails(fs[j], clazz, mode, reg, host)
    decreases |fs|
  {
    if fs != [] {
      WriteErrorsNeedSelection(fs[1..], clazz, mode, reg, host);
      assert forall j | 0 <= j < |fs[1..]| :: fs[1..][j] == fs[j + 1];
    }
  }

  /** `Helper.writeSyncVars(obj, tags, syncType)`: the object's own runtime class is searched. */
  function WriteObject(inst: Instance, tags: Bag, mode: Mode, reg: Registry, host: Host): (r: WriteResult)
    ensures forall k | k in r.tags && (k !in tags || r.tags[k] != tags[k]) ::
              exists j :: 0 <= j < |inst.fields| && inst.fields[j].owner == inst.cls
                && inst.fields[j].sync.Some? && inst.fields[j].sync.value.name == k
  {
    WriteSyncVars(inst.cls, inst, tags, mode, reg, host)
  }

  // ---------------------------------------------------------------------------
  // readSyncVars
  // ---------------------------------------------------------------------------

  /** What reading one visited field does to it. */
  datatype ReadStep = Assign(v: Value) | Keep | ReadFailed(error: SyncError)

  /**
    The branch of the read chain that `Dispatch` picks decides the step: an
    exact type assigns what the matching getter returns, a `LazyOptional` and
    an `INBTSerializable` object deserialize the tag under `key` into the object
    they hold, a registered class assigns what its loader reads from the
    compound under `key`; a field reflection may not assign fails where the
    source calls `field.set`, and any other type is reported and skipped.
   */
  function ReadAction(f: Field, key: string, tags: Bag, reg: Registry, host: Host): (r: ReadStep)
    ensures r.Assign? ==> TypeOf(r.v) == TypeOf(f.value)
    ensures r.Keep? <==> f.value.Lazy? && f.value.content.None?
    ensures r.ReadFailed? <==>
      || Dispatch(TypeOf(f.value), reg) == Unsupported
      || (!f.settable && (f.value.Prim? || Dispatch(TypeOf(f.value), reg) == RegistryRoute))
    ensures r.ReadFailed? ==>
      r.error == (if Dispatch(TypeOf(f.value), reg) == Unsupported then UnknownType(TypeOf(f.value).cls, Reading)
                  else IllegalAccess(key))
    ensures Dispatch(TypeOf(f.value), reg).Exact? && f.settable ==>
      r == Assign(Prim(HostGet(host, tags, key, BuiltinOf(f.value.p))))
    ensures Dispatch(TypeOf(f.value), reg) == LazyOptionalRoute && f.value.content.Some? ==>
      r == Assign(Lazy(f.value.lazyDecl, Some(host.deserializeNBT(f.value.content.value, Lookup(tags, key)))))
    ensures Dispatch(TypeOf(f.value), reg) == SerializableRoute ==>
      r == Assign(Ref(f.value.decl, host.deserializeNBT(f.value.obj, Lookup(tags, key))))
    ensures Dispatch(TypeOf(f.value), reg) == RegistryRoute && f.settable ==>
      r == Assign(Ref(f.value.decl, reg[TypeOf(f.value).cls].read(host.getCompound(tags, key))))
  {
    match f.value
    case Prim(p) =>
      if f.settable then Assign(Prim(HostGet(host, tags, key, BuiltinOf(p))))
      else ReadFailed(IllegalAccess(key))
    case Lazy(d, content) =>
      // the object inside is updated in place; the field itself is not assigned
      if content.Some? then Assign(Lazy(d, Some(host.deserializeNBT(content.value, Lookup(tags, key)))))
      else Keep
    case Ref(decl, o) =>
      if decl.serializable then Assign(Ref(decl, host.deserializeNBT(o, Lookup(tags, key))))
      else if decl.name in reg then
        var loaded := reg[decl.name].read(host.getCompound(tags, key));
        if f.settable then Assign(Ref(decl, loaded)) else ReadFailed(IllegalAccess(key))
      else ReadFailed(UnknownType(decl.name, Reading))
  }

  /**
    Whether a read over `clazz` processes this field. The source never looks at
    `onLoad`; `honorOnLoad` selects the corrected reading that does.
   */
  predicate Loads(f: Field, clazz: TypeId, honorOnLoad: bool) {
    Visited(f, clazz) && (honorOnLoad ==> f.sync.value.onLoad)
  }

  /** Whether a field is the same slot before and after: only its value may differ, and not its type. */
  predicate SameSlot(f: Field, g: Field) {
    f.owner == g.owner && f.sync == g.sync && f.settable == g.settable && TypeOf(f.value) == TypeOf(g.value)
  }

  /** The outcome of reading one field: the field afterwards, and its error if any. */
  function ReadOne(f: Field, clazz: TypeId, tags: Bag, honorOnLoad: bool, reg: Registry, host: Host): (r: (Field, seq<SyncError>))
    ensures SameSlot(f, r.0)
    ensures !Loads(f, clazz, honorOnLoad) ==> r == (f, [])
    ensures |r.1| <= 1
  {
    if Loads(f, clazz, honorOnLoad) then
      match ReadAction(f, f.sync.value.name, tags, reg, host)
      case Assign(v) => (f.(value := v), [])
      case Keep => (f, [])
      case ReadFailed(e) => (f, [e])
    else (f, [])
  }

  /** The fields after a read, and the errors it printed. */
  datatype ReadResult = ReadResult(fields: seq<Field>, log: seq<SyncError>)

  /** The errors a read reports, in field order. */
  function ReadErrors(fs: seq<Field>, clazz: TypeId, tags: Bag, honorOnLoad: bool, reg: Registry, host: Host): seq<SyncError> {
    if fs == [] then []
    else ReadOne(fs[0], clazz, tags, honorOnLoad, reg, host).1 + ReadErrors(fs[1..], clazz, tags, honorOnLoad, reg, host)
  }

  /** The loop over the declared fields, from `fs[0]` on: each field is read on its own. */
  function ReadFields(fs: seq<Field>, clazz: TypeId, tags: Bag, honorOnLoad: bool, reg: Registry, host: Host): (r: ReadResult)
    ensures |r.fields| == |fs|
    ensures forall i | 0 <= i < |fs| :: r.fields[i] == ReadOne(fs[i], clazz, tags, honorOnLoad, reg, host).0
    ensures r.log == ReadErrors(fs, clazz, tags, honorOnLoad, reg, host)
    decreases |fs|
  {
    if fs == [] then ReadResult([], [])
    else
      var (f, e) := ReadOne(fs[0], clazz, tags, honorOnLoad, reg, host);
      var rest := ReadFields(fs[1..], clazz, tags, honorOnLoad, reg, host);
      ReadResult([f] + rest.fields, e + rest.log)
  }

  /** The object after a read, and the errors it printed. */
  datatype ReadOutcome = ReadOutcome(inst: Instance, log: seq<SyncError>)

  /**
    `Helper.readSyncVars(clazz, obj, tags)`, as written: every annotated field
    that `clazz` declares is read, whatever its `onLoad` flag says.
   */
  function ReadSyncVars(clazz: TypeId, inst: Instance, tags: Bag, reg: Registry, host: Host): (r: ReadOutcome)
    ensures r.inst.cls == inst.cls && |r.inst.fields| == |inst.fields|
    ensures forall i | 0 <= i < |inst.fields| :: SameSlot(inst.fields[i], r.inst.fields[i])
    ensures forall i | 0 <= i < |inst.fields| && !Visited(inst.fields[i], clazz) :: r.inst.fields[i] == inst.fields[i]
  {
    var r := ReadFields(inst.fields, clazz, tags, false, reg, host);
    ReadOutcome(Instance(inst.cls, r.fields), r.log)
  }

  /**
    `Helper.readSyncVars` as its annotation documents it: a field whose
    `onLoad` is false is left alone.
   */
  function ReadSyncVarsHonoringOnLoad(clazz: TypeId, inst: Instance, tags: Bag, reg: Registry, host: Host): (r: ReadOutcome)
    ensures r.inst.cls == inst.cls && |r.inst.fields| == |inst.fields|
    ensures forall i | 0 <= i < |inst.fields| :: SameSlot(inst.fields[i], r.inst.fields[i])
    ensures forall i | 0 <= i < |inst.fields| && !Loads(inst.fields[i], clazz, true) :: r.inst.fields[i] == inst.fields[i]
  {
    var r := ReadFields(inst.fields, clazz, tags, true, reg, host);
    ReadOutcome(Instance(inst.cls, r.fields), r.log)
  }

  /** `Helper.readSyncVars(obj, tags)`: the object's own runtime class is searched. */
  function ReadObject(inst: Instance, tags: Bag, reg: Registry, host: Host): (r: ReadOutcome)
    ensures |r.inst.fields| == |inst.fields|
    ensures forall i | 0 <= i < |inst.fields| && inst.fields[i].owner != inst.cls :: r.inst.fields[i] == inst.fields[i]
  {
    ReadSyncVars(inst.cls, inst, tags, reg, host)
  }
}
